=== FILE: README.md ===
# LoRa chat: client state and gateway framer

A small chat application talks over a LoRa radio. Two pieces of it hold the
logic, and this project models both in Dafny:

- **The browser client** (`components/chat-interface.tsx`) keeps three things:
  - an ordered list of chat messages;
  - a telemetry snapshot for the details panel;
  - the composer text.

  Frames from the gateway arrive as `{type, data}`. A `message` frame appends a
  remote message. A `stats` frame replaces the snapshot wholesale. Any other
  type is ignored. Pressing send rejects blank input. Otherwise it appends a
  local message in state `sending` and clears the composer. It writes a `send`
  frame only if the socket is open. RSSI is classified into Excellent / Good /
  Fair / Poor at -70, -85 and -100 dBm.
- **The Python gateway** (`server/server.py`) reads text from the radio's serial
  line into a buffer and cuts lines out of it:
  - `[MSG]` lines become message broadcasts, suppressed when repeated through a
    bounded set of recent payloads;
  - `[STATS]` lines become telemetry broadcasts, with defaults filled in and
    merged into the latest telemetry.

  Messages take priority over telemetry. An unterminated `[STATS]` line waits for
  more input, but an unterminated `[MSG]` line is taken at once. Client frames
  of type `send` are stripped and, when not blank, written to serial with a
  newline.

Modules:

- `Wrappers`: `Option`.
- `Wire`: the `type` values of the socket frames, shared by both ends.
- `Text`: substring search and the single-occurrence replace.
- `Whitespace`: JavaScript's `trim` and Python's `str.strip`, each with its own
  whitespace class.
- `Decimal`: `${n}` for integers, with a parser that reads the text back.
- `Chat`: the client.
- `Gateway`: the framer and the send filter.
- `Framing`: the split-line finding below.
- `Link`: lemmas that connect the client and the gateway.

Serial and socket I/O, JSON and the clock are not part of the model:

- the framer takes the text read and returns the frames it would broadcast;
- JSON decoding of a `[STATS]` line is a parameter `decode`;
- the order Python iterates a set in is a parameter `trim`, of which only
  "keeps some 50 of the entries" is assumed.

## Model

| member | source | states |
|---|---|---|
| `Chat.RssiToLabel` | components/chat-interface.tsx:94-99 | Excellent iff rssi > -70, Good iff -85 < rssi <= -70, Fair iff -100 < rssi <= -85, Poor iff rssi <= -100, so each boundary value falls into the lower label |
| `Chat.RssiMonotone` | components/chat-interface.tsx:95-98 | a stronger reading never gets a worse label |
| `Chat.InitialIsPlaceholder` | components/chat-interface.tsx:40-50 | the initial state has no messages and an empty composer; its snapshot is labelled Good with counters 0, a "-" spreading factor and every other reading shown as "-"; no stats payload can produce that snapshot |
| `Chat.StatsSnapshot` | components/chat-interface.tsx:77-87 | a stats payload yields a snapshot exactly when `avgLatency` is defined, because `toFixed` on undefined throws before the update; counters are copied verbatim; the raw readings are kept; the label is the RSSI classification of the signal strength, and Poor when it is missing; the spreading factor is "SF" followed by the integer's decimal text as `${n}` prints it (which `Chat.NumberTextReadsBack` reads back), or "SFundefined" when it is missing |
| `Chat.NumberTextReadsBack` | components/chat-interface.tsx:81 | the decimal text of a defined integer parses back to that integer |
| `Decimal.ParseIntText` | components/chat-interface.tsx:81 | parsing the decimal rendering of any integer, negative ones included, gives that integer back |
| `Decimal.ParseNatText` | components/chat-interface.tsx:81 | parsing the digits of a natural number gives it back |
| `Chat.OnFrame` | components/chat-interface.tsx:58-89 | a `message` frame with text appends one remote, delivered, not-mine message with the frame's text at the end and keeps the snapshot; a `stats` frame with a defined `avgLatency` keeps the messages and installs the payload's snapshot; a `stats` frame without `avgLatency`, a frame whose data has the wrong shape for its type, an undecodable frame and any other type change nothing; the composer is never touched |
| `Chat.StatsReplaceWholesale` | components/chat-interface.tsx:75-88 | the snapshot a stats frame installs does not depend on the snapshot it replaces |
| `Chat.LastStatsWins` | components/chat-interface.tsx:75-88 | after any run of events, the snapshot is the one the last installing stats frame carried, or the starting one if there was none |
| `Chat.MessagesOnlyGrow` | components/chat-interface.tsx:61-72 | across any run of events, earlier messages are never changed, removed or reordered; the old list is a prefix of the new one |
| `Chat.HandleSend` | components/chat-interface.tsx:101-119 | blank input (by JavaScript's `trim`) changes nothing and writes nothing; otherwise one local message in state `sending` with the untrimmed input is appended, the composer is cleared and the snapshot kept; a `send` frame carrying the untrimmed input is written iff the socket is open and the input is not blank |
| `Chat.ClosedSocketNeverWrites` | components/chat-interface.tsx:116-118 | a run of events in which no send happens with the socket open writes nothing |
| `Chat.WritesAreNonBlankSends` | components/chat-interface.tsx:102-117 | every write in any run of events is a `send` frame with non-blank data |
| `Chat.TwoSendsInOrder` | components/chat-interface.tsx:101-114 | typing and sending two non-blank texts appends both messages, in order, whether or not the socket is open |
| `Whitespace.Trim` | server/server.py:33 | the stripped text is a contiguous slice of the input; everything cut from either end is whitespace; the result is empty iff the input is all whitespace; otherwise it starts and ends with non-whitespace |
| `Whitespace.TrimIdempotent` | server/server.py:81 | stripping twice is stripping once |
| `Text.IndexOf` | server/server.py:28 | finds the first occurrence of the tag, and finds one iff the tag occurs |
| `Text.RemoveCutLine` | server/server.py:31 | replacing the first occurrence of a line that starts at the first tag removes exactly that segment at that position |
| `Gateway.LineStop` | server/server.py:29-30 | the line ends at the first newline from the tag on, or at the end of the buffer when there is none |
| `Gateway.CutMsgLine` | server/server.py:27-31 | the cut line starts at the first `[MSG]`, runs up to but excluding the next newline or to the end of the buffer, and is the only text removed; the newline stays |
| `Gateway.CutIsReplace` | server/server.py:31 | `buffer.replace(line, "", 1)` on the cut line leaves exactly the buffer without the segment at the first `[MSG]`, as the cut computes it |
| `Gateway.Remember` | server/server.py:34-39 | a payload is new iff it is not in the recent set; a repeat leaves the set alone; a new payload joins the set, and the set is the old one plus the payload while it held fewer than 100; a new payload arriving at 100 or more leaves exactly 50 entries; the set never grows past 100 |
| `Gateway.TakeMessage` | server/server.py:27-42 | a `[MSG]` pass removes the line, shortens the buffer, broadcasts the stripped payload iff it was not recent, leaves the recent set as remembering that payload leaves it (so within 100) and leaves telemetry alone |
| `Gateway.CutStatsLine` | server/server.py:44-51 | there is no terminated stats line iff no newline follows any `[STATS]`; otherwise the line runs from the first `[STATS]` to the next newline, and everything up to and including that newline is dropped |
| `Gateway.StatsFromLine` | server/server.py:53-60 | a line without `{` yields nothing; otherwise, from the first `{` on, the line yields telemetry iff `decode` accepts that suffix, and the telemetry is the decoded object with the defaults filled in, so it always carries latency, last ping and signal strength |
| `Gateway.TakeStats` | server/server.py:44-68 | an unterminated stats line breaks the loop; a terminated one is consumed whether or not it parses; the one stats frame broadcast is exactly the telemetry the cut line yields, and nothing is broadcast when it yields none; no `[MSG]` appears in what is left; the merged telemetry matches what was broadcast |
| `Gateway.ReadStep` | server/server.py:26-51 | a buffer with `[MSG]` is handled by the `[MSG]` branch (`TakeMessage`) and one without by the `[STATS]` branch (`TakeStats`); a pass breaks iff there is no `[MSG]` and every `[STATS]` is unterminated; every other pass strictly shortens the buffer and keeps the recent set within 100 |
| `Gateway.Drain` | server/server.py:26-68 | passes run until no tag is left or a pass breaks, and the broadcasts are those of each pass in turn; what is left has no `[MSG]` and no `[STATS]` followed by a newline, and is no longer than the input; no stats broadcast is followed by a message broadcast; a buffer without `[MSG]` broadcasts only telemetry; the latest telemetry is the merge of every stats frame broadcast; the recent set stays within 100; a buffer without tags is left as it is |
| `Gateway.ReadSerial` | server/server.py:24-68 | the loop's leftover buffer, recent set, telemetry and broadcasts are exactly those of `Gateway.Drain` on the pending text plus the text read; it ends with no `[MSG]` left and no `[STATS]` followed by a newline; message broadcasts precede stats broadcasts; the latest telemetry is the merge of every stats frame broadcast; the recent set stays within 100; a read without tags changes nothing |
| `Gateway.Truncate` | server/server.py:59-60 | Python's `int()` on a number rounds toward zero |
| `Gateway.AsInt` | server/server.py:59-60 | coercing with `int()` gives a whole number, leaves whole numbers unchanged and otherwise rounds toward zero, so -69.5 becomes -69 |
| `Gateway.WithDefaults` | server/server.py:58-60 | the three coerced fields are added to the decoded keys; every other field passes through; latency defaults to 0, last ping to 0 and signal strength to -100, the latter two truncated |
| `Gateway.StatsDefaults` | server/server.py:58-60 | latency, last ping and signal strength are always present; missing ones read 0, 0 and -100; last ping and signal strength are whole numbers |
| `Gateway.Merge` | server/server.py:61 | `update` keeps every old field and overwrites exactly the fields the new telemetry carries |
| `Gateway.ApplyStatsAppend` | server/server.py:61 | merging the frames of two runs one after the other is merging the frames of the joined run |
| `Gateway.SerialWrite` | server/server.py:79-84 | a client frame is written iff its type is `send` and its data (absent reads as empty) is not blank by Python's `strip`; what is written is the stripped text, non-whitespace at both ends, followed by one newline |
| `Framing.UnterminatedMsgTaken` | server/server.py:27-33 | as written: for any text without a newline after `[MSG]`, the whole rest of the buffer is cut as the line, nothing is left, and the payload is that text stripped |
| `Framing.SplitReadsTruncated` | server/server.py:24-42 | as written, through the read loop: framing `[MSG] hel` broadcasts `hel` and empties the buffer, and framing the next read `lo\n` on that buffer broadcasts nothing |
| `Framing.SplitLineTruncated` | server/server.py:27-33 | as written: a `[MSG] hel` read before `lo\n` arrives broadcasts `hel` and leaves an empty buffer, so the next read sees only the tagless `lo\n` and `hello` is never broadcast |
| `Framing.ReadStepWaiting` | server/server.py:27-51 | corrected step: a `[MSG]` line is taken only once its newline is in the buffer; otherwise the pass behaves as written |
| `Framing.DrainWaiting` | server/server.py:26-68 | corrected loop as a recursion: what is left has no `[MSG]`, or its first `[MSG]` line has no newline yet; with no `[MSG]` left, no `[STATS]` is followed by a newline; broadcast order, telemetry merge and recent bound as in `Gateway.Drain`; a buffer without tags, or whose first `[MSG]` line is unterminated, is left as it is |
| `Framing.ReadSerialWaiting` | server/server.py:24-68 | corrected loop: its leftover buffer, recent set, telemetry and broadcasts are exactly those of `Framing.DrainWaiting`; it ends with either no `[MSG]` left or the first `[MSG]` line still waiting for its newline, and with no `[STATS]` followed by a newline when no `[MSG]` is left; a read that leaves the first `[MSG]` unterminated changes nothing; order, telemetry merge and recent bound as in the loop as written |
| `Framing.SplitLineWaits` | server/server.py:27-51 | corrected, one pass at a time: a pass over `[MSG] hel` waits, and one pass over the joined text `[MSG] hello\n` broadcasts `hello` |
| `Framing.SplitReadsWait` | server/server.py:24-51 | corrected, through the read loop: framing the first read `[MSG] hel` broadcasts nothing and keeps it all, and framing the second read `lo\n` on top of it broadcasts exactly `hello` |
| `Link.SendReachesRadio` | server/server.py:80-84 | a non-blank send on an open socket reaches the radio as the stripped text plus a newline, unless Python's `strip` finds it blank |
| `Link.SeparatorSendIsLost` | server/server.py:81-82 | a lone U+001C is not blank to the client, so it is shown as sending and written to the socket, but the gateway strips it to nothing and writes nothing to the radio |
| `Link.RadioMessageShown` | components/chat-interface.tsx:61-72 | a payload the gateway broadcasts is appended at the client as a delivered remote message |
| `Link.TakenStatsShown` | server/server.py:44-63 | every telemetry frame a `[STATS]` pass broadcasts carries a latency, so the client installs its snapshot and changes nothing else |
| `Link.GatewayStatsAlwaysShown` | server/server.py:58-63 | every telemetry frame the gateway broadcasts installs a snapshot at the client, because the latency is always filled in; one without a signal strength shows as Poor |

## Left out

- Serial and WebSocket I/O, `broadcast`, the console logs, `asyncio.sleep` and the outer polling loop. `ReadSerial` models one serial read and the framing that follows it.
- An exception from the `[MSG]` broadcast, which aborts the framing pass and is caught by the outer handler in `server/server.py`; the model has no failure for it. An exception from the `[STATS]` broadcast is caught inside the stats branch after the telemetry was merged, so that pass completes, as in the model.
- UTF-8 decoding of serial bytes with `errors='ignore'`. The model starts from the decoded text.
- JSON encoding and decoding on both sides. Client frames arrive already decoded, and `None` stands for a parse error. On the gateway the decoding of a `[STATS]` line is the parameter `decode`, which returns `None` wherever the source takes an exception path. That covers invalid JSON, a non-object, and a value that `float()`/`int()` rejects.
- Gateway.StatsFromLine: telemetry values are numbers. String or nested values in the decoded object are not modelled.
- Gateway.Remember: which 50 payloads survive a cut depends on Python's set iteration order. The model assumes only that some 50 of them are kept.
- Floating-point formatting on the client: `/ 1000000`, `/ 1000`, `toFixed(1)` and the "s ago" arithmetic on `Date.now()`. The snapshot keeps the raw reading each of these fields is rendered from.
- Decimal.ParseIntText: `${n}` is modelled for integers as plain decimal digits. The exponent form JavaScript uses from 1e21 on is not modelled.
- Link.ToPayload: a spreading factor that is not a whole number is read as undefined. The source would print its decimal expansion.
- Chat.OnFrame: a `message` frame whose `data` is not a string is ignored. The source would append the value as the message content.
- Chat.StatsSnapshot: a field that is JSON `null` is not modelled; a field is either a number or undefined. In the source a null signal strength compares as 0 and is labelled Excellent, a null spreading factor prints as "SFnull", and a null `avgLatency` throws just as an undefined one does.
- Chat.OnFrame: a `stats` frame whose `data` is null or not an object is ignored, which is what the source's thrown exception amounts to. NaN and infinities are not modelled.
- Message ids and timestamps from `Date.now()`, and `formatTime`. These come from the wall clock.
- React's closure over a stale `messages` list in `handleSendMessage`, and state-update batching. Events are modelled as handled one at a time on the current state.
- The view: rendering, tabs, avatars, the signal bars component and `app/page.tsx`.

## Findings

| source | as written | input that shows it | evidently intended | confidence | as-written member | corrected member |
|---|---|---|---|---|---|---|
| server/server.py:29-33 | an unterminated `[MSG]` line is cut to the end of the buffer and broadcast at once | a first serial read `[MSG] hel`, then `lo\n` in the next read: `hel` is broadcast and `lo` stays behind as untagged text that is never broadcast | wait for the newline, as the `[STATS]` branch does at lines 46-48, so that `hello` is broadcast | medium (not executed) | `Framing.SplitReadsTruncated` | `Framing.SplitReadsWait` |

The corrected step is `Framing.ReadStepWaiting`, and `Framing.ReadSerialWaiting` is the read loop built on it. `Gateway.ReadSerial` is the loop as written, with the same ordering, merge and bound guarantees.

A related mismatch between the two components is proved in `Link.SeparatorSendIsLost`. The client tests blankness with JavaScript's `trim`, and the gateway with Python's `strip`. Their whitespace classes differ: U+001C–U+001F and U+0085 count only for Python, and U+FEFF only for JavaScript. So a message made only of U+001C–U+001F, U+0085 and ordinary whitespace is shown as sending but never reaches the radio.

=== FILE: chat.dfy ===
/** The chat client's state: the ordered message list, the telemetry
    snapshot shown in the details panel and the composer's text, with the
    transitions the socket callback and the send button perform on it. */
module Chat {
  import opened Wrappers
  import opened Whitespace
  import opened Decimal
  import opened Wire

  const RemoteSender := "Remote"
  const LocalSender := "You"
  const Placeholder := "-"
  const Undefined := "undefined"
  const SpreadingPrefix := "SF"

  /** RSSI thresholds in dBm; each is exclusive from above. */
  const ExcellentAbove: real := -70.0
  const GoodAbove: real := -85.0
  const FairAbove: real := -100.0

  datatype Status = Sending | Sent | Delivered | Read

  /** A chat bubble; its id and timestamp come from the wall clock and are
      not part of the model. */
  datatype Msg = Msg(sender: string, content: string, status: Status, isMe: bool)

  datatype Quality = Excellent | Good | Fair | Poor

  /** A display field the client formats from a raw payload number (MHz,
      kHz, "s ago", one decimal place): either the initial dash or the raw
      value, possibly `undefined`, it is rendered from. */
  datatype Reading = Dash | Derived(raw: Option<real>)

  datatype Snapshot = Snapshot(
    signal: Quality,
    frequency: Reading,
    bandwidth: Reading,
    spreadingFactor: string,
    lastPing: Reading,
    sentMessages: Option<real>,
    receivedMessages: Option<real>,
    deliveryRate: Option<real>,
    latency: Reading)

  /** The `data` of a stats frame after JSON decoding; None is a field the
      frame left out, which reads as `undefined`. */
  datatype StatsPayload = StatsPayload(
    signalStrength: Option<real>,
    frequency: Option<real>,
    bandwidth: Option<real>,
    spreadingFactor: Option<int>,
    lastPing: Option<real>,
    messagesSent: Option<real>,
    messagesReceived: Option<real>,
    deliveryRate: Option<real>,
    avgLatency: Option<real>)

  datatype Data = Text(text: string) | Record(stats: StatsPayload)

  /** A decoded inbound envelope `{type, data}`. */
  datatype Frame = Frame(kind: string, data: Data)

  datatype ChatState = ChatState(messages: seq<Msg>, snapshot: Snapshot, input: string)

  /** An outbound envelope `{type, data}` written to the socket. */
  datatype Outbound = Outbound(kind: string, data: string)

  datatype SendResult = SendResult(state: ChatState, wire: Option<Outbound>)

  /** What reaches the component: a socket frame (None when JSON.parse
      throws), a keystroke replacing the composer text, or a send. */
  datatype UiEvent = Received(decoded: Option<Frame>) | Typed(text: string) | Pressed(socketOpen: bool)

  datatype Trace = Trace(state: ChatState, wire: seq<Outbound>)

  const InitialSnapshot := Snapshot(Good, Dash, Dash, Placeholder, Dash, Some(0.0), Some(0.0), Some(0.0), Dash)

  const Initial := ChatState([], InitialSnapshot, "")

  /** Orders labels from worst to best. */
  function Rank(q: Quality): nat
  {
    match q
    case Poor => 0
    case Fair => 1
    case Good => 2
    case Excellent => 3
  }

  /** The signal-quality label of an RSSI reading. */
  function RssiToLabel(rssi: real): (q: Quality)
    ensures q == Excellent <==> rssi > ExcellentAbove
    ensures q == Good <==> GoodAbove < rssi <= ExcellentAbove
    ensures q == Fair <==> FairAbove < rssi <= GoodAbove
    ensures q == Poor <==> rssi <= FairAbove
  {
    if rssi > ExcellentAbove then Excellent
    else if rssi > GoodAbove then Good
    else if rssi > FairAbove then Fair
    else Poor
  }

  /** A stronger signal never gets a worse label. */
  lemma RssiMonotone(a: real, b: real)
    requires a <= b
    ensures Rank(RssiToLabel(a)) <= Rank(RssiToLabel(b))
  {
  }

  /** `${n}` for a possibly undefined integer. */
  function NumberText(n: Option<int>): string
  {
    match n
    case Some(v) => IntText(v)
    case None => Undefined
  }

  lemma NumberTextReadsBack(n: Option<int>)
    ensures n.Some? ==> ParseInt(NumberText(n)) == n
  {
    if n.Some? {
      ParseIntText(n.value);
    }
  }

  /** The snapshot a stats payload turns into, or None when `avgLatency`
      is undefined and the client's `toFixed` call throws first. */
  function StatsSnapshot(p: StatsPayload): (r: Option<Snapshot>)
    ensures r.Some? <==> p.avgLatency.Some?
    ensures r.Some? ==> (r.value.signal == Excellent <==> p.signalStrength.Some? && p.signalStrength.value > ExcellentAbove)
    ensures r.Some? && p.signalStrength.Some? ==> r.value.signal == RssiToLabel(p.signalStrength.value)
    ensures r.Some? && p.signalStrength.None? ==> r.value.signal == Poor
    ensures r.Some? ==> r.value.sentMessages == p.messagesSent
    ensures r.Some? ==> r.value.receivedMessages == p.messagesReceived
    ensures r.Some? ==> r.value.deliveryRate == p.deliveryRate
    ensures r.Some? ==> r.value.frequency == Derived(p.frequency) && r.value.bandwidth == Derived(p.bandwidth)
    ensures r.Some? ==> r.value.lastPing == Derived(p.lastPing) && r.value.latency == Derived(p.avgLatency)
    ensures r.Some? ==> |r.value.spreadingFactor| > |SpreadingPrefix| && r.value.spreadingFactor[..|SpreadingPrefix|] == SpreadingPrefix
    ensures r.Some? && p.spreadingFactor.None? ==> r.value.spreadingFactor == SpreadingPrefix + Undefined
    ensures r.Some? && p.spreadingFactor.Some? ==> r.value.spreadingFactor == SpreadingPrefix + IntText(p.spreadingFactor.value)
  {
    if p.avgLatency.None? then None
    else
      var quality := if p.signalStrength.Some? then RssiToLabel(p.signalStrength.value) else Poor;
      var sf := SpreadingPrefix + NumberText(p.spreadingFactor);
      Some(Snapshot(
        quality,
        Derived(p.frequency),
        Derived(p.bandwidth),
        sf,
        Derived(p.lastPing),
        p.messagesSent,
        p.messagesReceived,
        p.deliveryRate,
        Derived(p.avgLatency)))
  }

  /** The text of a `message` frame whose data is a string. */
  function ChatLine(decoded: Option<Frame>): Option<string>
  {
    match decoded
    case Some(Frame(kind, Text(t))) => if kind == MessageKind then Some(t) else None
    case _ => None
  }

  /** The snapshot a `stats` frame installs, when it installs one. */
  function Telemetry(decoded: Option<Frame>): Option<Snapshot>
  {
    match decoded
    case Some(Frame(kind, Record(p))) => if kind == StatsKind then StatsSnapshot(p) else None
    case _ => None
  }

  /** The socket's `onmessage` handler. */
  function OnFrame(s: ChatState, decoded: Option<Frame>): (t: ChatState)
    ensures t.input == s.input
    ensures decoded.Some? && decoded.value.kind == MessageKind && decoded.value.data.Text? ==>
      t.messages == s.messages + [Msg(RemoteSender, decoded.value.data.text, Delivered, false)] && t.snapshot == s.snapshot
    ensures decoded.Some? && decoded.value.kind == StatsKind && decoded.value.data.Record? && decoded.value.data.stats.avgLatency.Some? ==>
      t.messages == s.messages && Some(t.snapshot) == StatsSnapshot(decoded.value.data.stats)
    ensures decoded.None? || (decoded.value.kind != MessageKind && decoded.value.kind != StatsKind) ==> t == s
    ensures decoded.Some? && decoded.value.kind == StatsKind && decoded.value.data.Record? && decoded.value.data.stats.avgLatency.None? ==> t == s
    ensures decoded.Some? && decoded.value.kind == MessageKind && decoded.value.data.Record? ==> t == s
    ensures decoded.Some? && decoded.value.kind == StatsKind && decoded.value.data.Text? ==> t == s
  {
    match ChatLine(decoded)
    case Some(text) => s.(messages := s.messages + [Msg(RemoteSender, text, Delivered, false)])
    case None =>
      match Telemetry(decoded)
      case Some(snap) => s.(snapshot := snap)
      case None => s
  }

  /** `handleSendMessage`, given whether the socket is open. */
  function HandleSend(s: ChatState, socketOpen: bool): (r: SendResult)
    ensures Blank(s.input, IsJsSpace) ==> r.state == s && r.wire == None
    ensures !Blank(s.input, IsJsSpace) ==>
      && r.state.messages == s.messages + [Msg(LocalSender, s.input, Sending, true)]
      && r.state.input == ""
      && r.state.snapshot == s.snapshot
    ensures r.wire.Some? <==> socketOpen && !Blank(s.input, IsJsSpace)
    ensures r.wire.Some? ==> r.wire.value == Outbound(SendKind, s.input)
  {
    if JsTrim(s.input) == "" then SendResult(s, None)
    else
      var t := ChatState(s.messages + [Msg(LocalSender, s.input, Sending, true)], s.snapshot, "");
      SendResult(t, if socketOpen then Some(Outbound(SendKind, s.input)) else None)
  }

  /** One event's effect on the state, with what it writes to the socket. */
  function Apply(s: ChatState, e: UiEvent): SendResult
  {
    match e
    case Received(decoded) => SendResult(OnFrame(s, decoded), None)
    case Typed(text) => SendResult(s.(input := text), None)
    case Pressed(socketOpen) => HandleSend(s, socketOpen)
  }

  /** Events handled one after another, in arrival order. */
  function Replay(s: ChatState, evs: seq<UiEvent>): Trace
    decreases |evs|
  {
    if evs == [] then Trace(s, [])
    else
      var r := Apply(s, evs[0]);
      var rest := Replay(r.state, evs[1..]);
      Trace(rest.state, (match r.wire case Some(o) => [o] case None => []) + rest.wire)
  }

  /** The snapshot the last telemetry-installing event in `evs` carries. */
  function LastTelemetry(evs: seq<UiEvent>): Option<Snapshot>
    decreases |evs|
  {
    if evs == [] then None
    else
      var last := evs[|evs| - 1];
      if last.Received? && Telemetry(last.decoded).Some? then Telemetry(last.decoded)
      else LastTelemetry(evs[..|evs| - 1])
  }

  /** A stats frame replaces the snapshot wholesale: what it installs does
      not depend on the snapshot it replaces. */
  lemma StatsReplaceWholesale(s1: ChatState, s2: ChatState, f: Frame)
    requires f.kind == StatsKind
    ensures OnFrame(s1, Some(f)).snapshot == s1.snapshot <==> Telemetry(Some(f)) == Some(s1.snapshot) || Telemetry(Some(f)).None?
    ensures Telemetry(Some(f)).Some? ==> OnFrame(s1, Some(f)).snapshot == OnFrame(s2, Some(f)).snapshot
  {
  }

  /** No telemetry frame reproduces the initial placeholder snapshot, whose
      label is Good, counters 0 and text fields "-". */
  lemma InitialIsPlaceholder(p: StatsPayload)
    ensures Initial.messages == [] && Initial.input == ""
    ensures InitialSnapshot.signal == Good && InitialSnapshot.spreadingFactor == Placeholder
    ensures InitialSnapshot.sentMessages == InitialSnapshot.receivedMessages == InitialSnapshot.deliveryRate == Some(0.0)
    ensures InitialSnapshot.frequency == InitialSnapshot.bandwidth == InitialSnapshot.lastPing == InitialSnapshot.latency == Dash
    ensures StatsSnapshot(p) != Some(InitialSnapshot)
  {
  }

  /** Messages are never changed or removed: the list only grows at its end. */
  lemma {:induction false} MessagesOnlyGrow(s: ChatState, evs: seq<UiEvent>)
    ensures s.messages <= Replay(s, evs).state.messages
    decreases |evs|
  {
    if evs != [] {
      var r := Apply(s, evs[0]);
      MessagesOnlyGrow(r.state, evs[1..]);
      assert s.messages <= r.state.messages;
    }
  }

  /** The snapshot after a run of events is the one the last stats frame
      installed, or the starting one if none did. */
  lemma {:induction false} LastStatsWins(s: ChatState, evs: seq<UiEvent>)
    ensures Replay(s, evs).state.snapshot == LastTelemetry(evs).GetOr(s.snapshot)
    decreases |evs|
  {
    if evs != [] {
      var r := Apply(s, evs[0]);
      LastStatsWins(r.state, evs[1..]);
      LastTelemetrySplit(evs[0], evs[1..]);
      assert evs == [evs[0]] + evs[1..];
      assert r.state.snapshot == LastTelemetry([evs[0]]).GetOr(s.snapshot);
    }
  }

  lemma {:induction false} LastTelemetrySplit(e: UiEvent, evs: seq<UiEvent>)
    ensures LastTelemetry([e] + evs) == if LastTelemetry(evs).Some? then LastTelemetry(evs) else LastTelemetry([e])
    decreases |evs|
  {
    if evs != [] {
      var all := [e] + evs;
      assert all[..|all| - 1] == [e] + evs[..|evs| - 1];
      assert all[|all| - 1] == evs[|evs| - 1];
      LastTelemetrySplit(e, evs[..|evs| - 1]);
    }
  }

  /** Nothing is written while the socket is closed, yet sends still append. */
  lemma {:induction false} ClosedSocketNeverWrites(s: ChatState, evs: seq<UiEvent>)
    requires forall k :: 0 <= k < |evs| ==> evs[k] != Pressed(true)
    ensures Replay(s, evs).wire == []
    decreases |evs|
  {
    if evs != [] {
      ClosedSocketNeverWrites(Apply(s, evs[0]).state, evs[1..]);
    }
  }

  /** Every socket write is a send frame carrying text that is not blank. */
  lemma {:induction false} WritesAreNonBlankSends(s: ChatState, evs: seq<UiEvent>)
    ensures forall k :: 0 <= k < |Replay(s, evs).wire| ==>
      Replay(s, evs).wire[k].kind == SendKind && !Blank(Replay(s, evs).wire[k].data, IsJsSpace)
    decreases |evs|
  {
    if evs != [] {
      WritesAreNonBlankSends(Apply(s, evs[0]).state, evs[1..]);
    }
  }

  /** Two sends in a row append both messages, in call order. */
  lemma TwoSendsInOrder(s: ChatState, a: string, b: string, open: bool)
    requires !Blank(a, IsJsSpace) && !Blank(b, IsJsSpace)
    ensures Replay(s, [Typed(a), Pressed(open), Typed(b), Pressed(open)]).state.messages
      == s.messages + [Msg(LocalSender, a, Sending, true), Msg(LocalSender, b, Sending, true)]
  {
    var s1 := s.(input := a);
    var s2 := HandleSend(s1, open).state;
    var s3 := s2.(input := b);
    var s4 := HandleSend(s3, open).state;
    assert Replay(s3, [Pressed(open)]).state == s4;
    assert Replay(s2, [Typed(b), Pressed(open)]).state == s4;
    assert Replay(s1, [Pressed(open), Typed(b), Pressed(open)]).state == s4;
  }
}

=== FILE: decimal.dfy ===
/** Decimal text of integers, as JavaScript's template literal `${n}` writes
    an integral number, with the parser that reads it back. */
module Decimal {
  import opened Wrappers

  predicate IsDigit(c: char)
  {
    '0' <= c <= '9'
  }

  function DigitChar(d: nat): (c: char)
    requires d < 10
    ensures IsDigit(c) && c as int - '0' as int == d
  {
    (('0' as int) + d) as char
  }

  /** Decimal digits of `n`, most significant first, without leading zeros. */
  function NatText(n: nat): (s: string)
    ensures |s| >= 1
    ensures forall k :: 0 <= k < |s| ==> IsDigit(s[k])
    ensures |s| > 1 ==> s[0] != '0'
  {
    if n < 10 then [DigitChar(n)] else NatText(n / 10) + [DigitChar(n % 10)]
  }

  /** `${n}`: a minus sign before the digits of a negative number. */
  function IntText(n: int): (s: string)
    ensures |s| >= 1
    ensures s[0] == '-' <==> n < 0
  {
    if n < 0 then "-" + NatText(-n) else NatText(n)
  }

  /** Value of a non-empty string of decimal digits. */
  function ParseNat(s: string): (r: Option<nat>)
    ensures r.Some? <==> |s| >= 1 && forall k :: 0 <= k < |s| ==> IsDigit(s[k])
  {
    if s == [] || !IsDigit(s[|s| - 1]) then None
    else if |s| == 1 then Some(s[0] as int - '0' as int)
    else match ParseNat(s[..|s| - 1])
      case None => None
      case Some(v) => Some(10 * v + (s[|s| - 1] as int - '0' as int))
  }

  /** Value of an optionally signed decimal numeral. */
  function ParseInt(s: string): Option<int>
  {
    if |s| >= 1 && s[0] == '-' then
      match ParseNat(s[1..])
      case None => None
      case Some(v) => Some(-(v as int))
    else match ParseNat(s)
      case None => None
      case Some(v) => Some(v as int)
  }

  lemma {:induction false} ParseNatText(n: nat)
    ensures ParseNat(NatText(n)) == Some(n)
  {
    if n >= 10 {
      var s := NatText(n);
      assert s[..|s| - 1] == NatText(n / 10);
      ParseNatText(n / 10);
    }
  }

  /** Reading back the text of `n` gives `n`. */
  lemma ParseIntText(n: int)
    ensures ParseInt(IntText(n)) == Some(n)
  {
    if n < 0 {
      var digits := NatText(-n);
      ParseNatText(-n);
      assert IntText(n) == "-" + digits;
      assert ("-" + digits)[1..] == digits;
    } else {
      ParseNatText(n);
      assert IntText(n) == NatText(n);
      assert IsDigit(NatText(n)[0]);
    }
  }
}

=== FILE: framing.dfy ===
/** A `[MSG]` line split across two serial reads. The framer as written
    cuts an unterminated `[MSG]` line at the end of the buffer; the
    corrected step waits for the newline, as the `[STATS]` branch does. */
module Framing {
  import opened Wrappers
  import opened Text
  import opened Whitespace
  import opened Gateway

  /** ReadStep, except that a `[MSG]` line without its newline stops the
      loop and stays in the buffer for the next read. */
  function ReadStepWaiting(buffer: string, relay: Relay, trim: set<string> -> set<string>,
                           decode: string -> Option<Stats>): (r: Option<Step>)
    requires KeepsSome(trim)
    requires Contains(buffer, MsgTag) || Contains(buffer, StatsTag)
    ensures Contains(buffer, MsgTag) ==>
      (r.Some? <==> CutMsgLine(buffer).start + |CutMsgLine(buffer).line| < |buffer|)
    ensures r.Some? && Contains(buffer, MsgTag) ==>
      && buffer[CutMsgLine(buffer).start + |CutMsgLine(buffer).line|] == '\n'
      && r.value == TakeMessage(buffer, relay, trim)
    ensures !Contains(buffer, MsgTag) ==> r == TakeStats(buffer, relay, decode)
  {
    if Contains(buffer, MsgTag) then
      var c := CutMsgLine(buffer);
      if c.start + |c.line| == |buffer| then None else Some(TakeMessage(buffer, relay, trim))
    else TakeStats(buffer, relay, decode)
  }

  /** A pass of the corrected step is a pass of the step as written. */
  lemma WaitingAgrees(buffer: string, relay: Relay, trim: set<string> -> set<string>,
                      decode: string -> Option<Stats>)
    requires KeepsSome(trim)
    requires Contains(buffer, MsgTag) || Contains(buffer, StatsTag)
    ensures ReadStepWaiting(buffer, relay, trim, decode).Some? ==>
      ReadStepWaiting(buffer, relay, trim, decode) == ReadStep(buffer, relay, trim, decode)
  {
  }

  /** The first `[MSG]` line of the buffer has no newline after it yet. */
  predicate MsgUnterminated(buffer: string)
  {
    Contains(buffer, MsgTag) && CutMsgLine(buffer).start + |CutMsgLine(buffer).line| == |buffer|
  }

  /** The corrected framing loop as a recursion: passes of ReadStepWaiting
      run until no tag is left or the step waits for more input. */
  function DrainWaiting(buffer: string, relay: Relay, trim: set<string> -> set<string>,
                        decode: string -> Option<Stats>): (r: Step)
    requires KeepsSome(trim)
    ensures MsgUnterminated(r.rest) || !Contains(r.rest, MsgTag)
    ensures !Contains(r.rest, MsgTag) ==> forall i: nat :: At(r.rest, StatsTag, i) ==> NoNewlineFrom(r.rest, i)
    ensures |r.rest| <= |buffer|
    ensures r.relay.latest == ApplyStats(relay.latest, r.out)
    ensures |relay.recent| <= RecentCap ==> |r.relay.recent| <= RecentCap
    ensures MessagesFirst(r.out)
    ensures !Contains(buffer, MsgTag) ==> forall k :: 0 <= k < |r.out| ==> r.out[k].StatsOut?
    ensures MsgUnterminated(buffer) ==> r == Step(buffer, relay, [])
    ensures !Contains(buffer, MsgTag) && !Contains(buffer, StatsTag) ==> r == Step(buffer, relay, [])
    decreases |buffer|
  {
    if !Contains(buffer, MsgTag) && !Contains(buffer, StatsTag) then Step(buffer, relay, [])
    else
      match ReadStepWaiting(buffer, relay, trim, decode)
      case None =>
        assert Contains(buffer, MsgTag) ==> MsgUnterminated(buffer);
        assert !Contains(buffer, MsgTag) ==> ReadStep(buffer, relay, trim, decode).None?;
        Step(buffer, relay, [])
      case Some(s) =>
        WaitingAgrees(buffer, relay, trim, decode);
        var d := DrainWaiting(s.rest, s.relay, trim, decode);
        ApplyStatsAppend(relay.latest, s.out, d.out);
        OrderJoin(s.out, d.out);
        Step(d.rest, d.relay, s.out + d.out)
  }

  /** A pass of the corrected step that goes through leaves the rest of
      the loop to the next pass. */
  lemma WaitingGoesOn(buffer: string, relay: Relay, trim: set<string> -> set<string>,
                      decode: string -> Option<Stats>, s: Step)
    requires KeepsSome(trim)
    requires Contains(buffer, MsgTag) || Contains(buffer, StatsTag)
    requires ReadStepWaiting(buffer, relay, trim, decode) == Some(s)
    ensures Resumes(DrainWaiting(buffer, relay, trim, decode), DrainWaiting(s.rest, s.relay, trim, decode), s.out)
  {
  }

  /** When the corrected loop ends, `whole` is exactly what it did. */
  lemma {:induction false} WaitingEnd(whole: Step, buffer: string, relay: Relay, trim: set<string> -> set<string>,
                                      decode: string -> Option<Stats>, out: seq<Event>)
    requires KeepsSome(trim)
    requires (Contains(buffer, MsgTag) || Contains(buffer, StatsTag)) ==> ReadStepWaiting(buffer, relay, trim, decode).None?
    requires Resumes(whole, DrainWaiting(buffer, relay, trim, decode), out)
    ensures whole == Step(buffer, relay, out)
  {
    assert DrainWaiting(buffer, relay, trim, decode) == Step(buffer, relay, []);
    assert out + [] == out;
  }

  /** The corrected read loop: lines are framed until the first `[MSG]`
      line, or every `[STATS]` line when there is no `[MSG]`, still waits
      for its newline; that partial line stays for the next read. */
  method ReadSerialWaiting(pending: string, chunk: string, relay: Relay,
                           trim: set<string> -> set<string>, decode: string -> Option<Stats>)
    returns (rest: string, after: Relay, out: seq<Event>)
    requires KeepsSome(trim)
    requires |relay.recent| <= RecentCap
    ensures |after.recent| <= RecentCap
    ensures MsgUnterminated(rest) || !Contains(rest, MsgTag)
    ensures !Contains(rest, MsgTag) ==> forall i: nat :: At(rest, StatsTag, i) ==> NoNewlineFrom(rest, i)
    ensures MessagesFirst(out)
    ensures after.latest == ApplyStats(relay.latest, out)
    ensures |rest| <= |pending| + |chunk|
    ensures MsgUnterminated(pending + chunk) ==> rest == pending + chunk && after == relay && out == []
    ensures Step(rest, after, out) == DrainWaiting(pending + chunk, relay, trim, decode)
  {
    rest := pending + chunk;
    after := relay;
    out := [];
    ghost var whole := DrainWaiting(rest, relay, trim, decode);
    assert Resumes(whole, whole, []);
    while Contains(rest, MsgTag) || Contains(rest, StatsTag)
      invariant Resumes(whole, DrainWaiting(rest, after, trim, decode), out)
      decreases |rest|
    {
      var step := ReadStepWaiting(rest, after, trim, decode);
      if step.None? {
        break;
      }
      var s := step.value;
      WaitingGoesOn(rest, after, trim, decode, s);
      ResumesChain(whole, DrainWaiting(rest, after, trim, decode), DrainWaiting(s.rest, s.relay, trim, decode), out, s.out);
      rest, after, out := s.rest, s.relay, out + s.out;
    }
    WaitingEnd(whole, rest, after, trim, decode, out);
  }

  lemma FirstLine()
    ensures Contains("[MSG] hel", MsgTag)
    ensures CutMsgLine("[MSG] hel") == MsgCut(0, "[MSG] hel", "")
    ensures MessagePayload("[MSG] hel") == "hel"
  {
    var b := "[MSG] hel";
    assert At(b, MsgTag, 0);
    var c := CutMsgLine(b);
    assert c.start == 0;
    assert |c.line| == |b|;
    assert c.line[|MsgTag|..] == " hel";
    HelPayload();
  }

  lemma HelPayload()
    ensures PyStrip(" hel") == "hel"
  {
    var body := " hel";
    assert LeadEnd(body, IsPySpace) == 1 by {
      assert IsPySpace(body[0]) && !IsPySpace(body[1]);
      assert LeadEnd(body[1..], IsPySpace) == 0;
    }
    assert TrailStart(body, IsPySpace) == 4;
    assert body[1..4] == "hel";
  }

  lemma WholeLine()
    ensures Contains("[MSG] hello\n", MsgTag)
    ensures CutMsgLine("[MSG] hello\n") == MsgCut(0, "[MSG] hello", "\n")
    ensures MessagePayload("[MSG] hello") == "hello"
  {
    var b := "[MSG] hello\n";
    assert At(b, MsgTag, 0);
    assert IndexOf(b, MsgTag) == Some(0);
    assert FindChar(b, '\n', 0) == Some(11);
    var c := CutMsgLine(b);
    assert c.line == b[0..11];
    assert c.rest == b[11..];
    HelloPayload();
  }

  lemma HelloPayload()
    ensures MessagePayload("[MSG] hello") == "hello"
  {
    var body := "[MSG] hello"[|MsgTag|..];
    assert body == " hello";
    assert LeadEnd(body, IsPySpace) == 1 by {
      assert IsPySpace(body[0]) && !IsPySpace(body[1]);
      assert LeadEnd(body[1..], IsPySpace) == 0;
    }
    assert TrailStart(body, IsPySpace) == 6;
    assert body[1..6] == "hello";
  }

  /** As written: a `[MSG]` line with no newline after it is cut whole, up
      to the end of the buffer, and its payload is what the pass broadcasts
      (see TakeMessage), however much of the line is still to come. */
  lemma {:induction false} UnterminatedMsgTaken(t: string)
    requires forall k :: 0 <= k < |t| ==> t[k] != '\n'
    ensures Contains(MsgTag + t, MsgTag)
    ensures CutMsgLine(MsgTag + t) == MsgCut(0, MsgTag + t, [])
    ensures MessagePayload(CutMsgLine(MsgTag + t).line) == PyStrip(t)
  {
    var b := MsgTag + t;
    assert b[..|MsgTag|] == MsgTag;
    assert At(b, MsgTag, 0);
    var c := CutMsgLine(b);
    assert c.start == 0;
    assert forall k :: |MsgTag| <= k < |b| ==> b[k] == t[k - |MsgTag|];
    assert |c.line| == |b|;
    assert c.line == b;
    assert c.line[|MsgTag|..] == t;
  }

  /** As written: the first read broadcasts only "hel" and leaves an empty
      buffer, so the second read sees just the rest of the line, "lo\n",
      which carries no tag: "hello" is never broadcast. */
  lemma SplitLineTruncated(relay: Relay, trim: set<string> -> set<string>)
    requires KeepsSome(trim)
    requires "hel" !in relay.recent
    ensures Contains(MsgTag + " hel", MsgTag)
    ensures TakeMessage(MsgTag + " hel", relay, trim).out == [MessageOut("hel")]
    ensures TakeMessage(MsgTag + " hel", relay, trim).rest == []
    ensures !Contains("lo\n", MsgTag) && !Contains("lo\n", StatsTag)
  {
    var b := MsgTag + " hel";
    UnterminatedMsgTaken(" hel");
    HelPayload();
    assert MessagePayload(CutMsgLine(b).line) == "hel";
    LeftoverUntagged();
  }

  /** As written, at the level of the read loop: framing the first read
      broadcasts "hel" and empties the buffer, and framing the second read,
      "lo\n" on that empty buffer, broadcasts nothing and keeps "lo\n". */
  lemma SplitReadsTruncated(relay: Relay, trim: set<string> -> set<string>, decode: string -> Option<Stats>)
    requires KeepsSome(trim)
    requires "hel" !in relay.recent
    ensures Drain(MsgTag + " hel", relay, trim, decode).out == [MessageOut("hel")]
    ensures Drain(MsgTag + " hel", relay, trim, decode).rest == []
    ensures Drain(Drain(MsgTag + " hel", relay, trim, decode).rest + "lo\n",
                  Drain(MsgTag + " hel", relay, trim, decode).relay, trim, decode).out == []
  {
    var b := MsgTag + " hel";
    SplitLineTruncated(relay, trim);
    var s := TakeMessage(b, relay, trim);
    assert ReadStep(b, relay, trim, decode) == Some(s);
    DrainGoesOn(b, relay, trim, decode, s);
    assert !Contains(s.rest, MsgTag) && !Contains(s.rest, StatsTag);
    assert s.out + [] == s.out;
    var first := Drain(b, relay, trim, decode);
    assert first.rest + "lo\n" == "lo\n";
  }

  /** The rest of the split line carries neither tag. */
  lemma LeftoverUntagged()
    ensures !Contains("lo\n", MsgTag) && !Contains("lo\n", StatsTag)
  {
    assert !At("lo\n", MsgTag, 0) && !At("lo\n", StatsTag, 0);
  }

  lemma WaitingHoldsPartialLine(relay: Relay, trim: set<string> -> set<string>, decode: string -> Option<Stats>)
    requires KeepsSome(trim)
    ensures Contains("[MSG] hel", MsgTag)
    ensures ReadStepWaiting("[MSG] hel", relay, trim, decode) == None
  {
    FirstLine();
  }

  lemma WaitingTakesWholeLine(relay: Relay, trim: set<string> -> set<string>, decode: string -> Option<Stats>)
    requires KeepsSome(trim)
    requires "hello" !in relay.recent
    ensures Contains("[MSG] hello\n", MsgTag)
    ensures ReadStepWaiting("[MSG] hello\n", relay, trim, decode).Some?
    ensures ReadStepWaiting("[MSG] hello\n", relay, trim, decode).value.out == [MessageOut("hello")]
  {
    WholeLine();
  }

  /** The two serial reads together hold the whole line. */
  lemma ReadsJoin()
    ensures "[MSG] hel" + "lo\n" == "[MSG] hello\n"
  {
    var joined := "[MSG] hel" + "lo\n";
    assert |joined| == 12;
    assert forall k :: 0 <= k < 12 ==> joined[k] == "[MSG] hello\n"[k];
  }

  /** Corrected: the first read waits, and once "lo\n" has arrived the
      whole payload "hello" is broadcast. */
  lemma SplitLineWaits(relay: Relay, trim: set<string> -> set<string>, decode: string -> Option<Stats>)
    requires KeepsSome(trim)
    requires "hello" !in relay.recent
    ensures "[MSG] hel" + "lo\n" == "[MSG] hello\n"
    ensures Contains("[MSG] hel", MsgTag) && Contains("[MSG] hello\n", MsgTag)
    ensures ReadStepWaiting("[MSG] hel", relay, trim, decode) == None
    ensures ReadStepWaiting("[MSG] hello\n", relay, trim, decode).Some?
    ensures ReadStepWaiting("[MSG] hello\n", relay, trim, decode).value.out == [MessageOut("hello")]
  {
    ReadsJoin();
    WaitingHoldsPartialLine(relay, trim, decode);
    WaitingTakesWholeLine(relay, trim, decode);
  }

  /** Corrected, at the level of the read loop: framing the first read
      `[MSG] hel` broadcasts nothing and keeps it all, and framing the
      second read on top of it broadcasts exactly "hello", leaving the
      newline behind. */
  lemma SplitReadsWait(relay: Relay, trim: set<string> -> set<string>, decode: string -> Option<Stats>)
    requires KeepsSome(trim)
    requires "hello" !in relay.recent
    ensures DrainWaiting("[MSG] hel", relay, trim, decode) == Step("[MSG] hel", relay, [])
    ensures DrainWaiting(DrainWaiting("[MSG] hel", relay, trim, decode).rest + "lo\n",
                         DrainWaiting("[MSG] hel", relay, trim, decode).relay, trim, decode).out
            == [MessageOut("hello")]
  {
    FirstReadWaits(relay, trim, decode);
    ReadsJoin();
    JoinedReadTaken(relay, trim, decode);
  }

  lemma FirstReadWaits(relay: Relay, trim: set<string> -> set<string>, decode: string -> Option<Stats>)
    requires KeepsSome(trim)
    ensures DrainWaiting("[MSG] hel", relay, trim, decode) == Step("[MSG] hel", relay, [])
  {
    FirstLine();
    assert MsgUnterminated("[MSG] hel");
  }

  /** Framing the joined line broadcasts "hello" once and keeps the newline. */
  lemma JoinedReadTaken(relay: Relay, trim: set<string> -> set<string>, decode: string -> Option<Stats>)
    requires KeepsSome(trim)
    requires "hello" !in relay.recent
    ensures DrainWaiting("[MSG] hello\n", relay, trim, decode).out == [MessageOut("hello")]
  {
    var b := "[MSG] hello\n";
    WholeLine();
    WaitingTakesWholeLine(relay, trim, decode);
    var s := ReadStepWaiting(b, relay, trim, decode).value;
    WaitingGoesOn(b, relay, trim, decode, s);
    assert s.rest == "\n";
    assert !At("\n", MsgTag, 0) && !At("\n", StatsTag, 0);
    assert DrainWaiting("\n", s.relay, trim, decode).out == [];
    assert s.out + [] == s.out;
  }
}

=== FILE: gateway.dfy ===
/** The gateway between the LoRa radio's serial line and the chat clients:
    the framer that cuts `[MSG]` and `[STATS]` lines out of the text read
    from serial, the bounded set that suppresses repeated messages, the
    defaults filled into telemetry, and the filter on client send frames.
    Serial reads, broadcasts, JSON and the polling loop are outside: the
    framer receives the text read and returns the frames to broadcast. */
module Gateway {
  import opened Wrappers
  import opened Text
  import opened Whitespace
  import opened Wire

  const MsgTag := "[MSG]"
  const StatsTag := "[STATS]"

  /** The repeat-suppression set is cut back to `RecentKeep` entries once
      it holds more than `RecentCap`. */
  const RecentCap := 100
  const RecentKeep := 50

  const AvgLatencyKey := "avgLatency"
  const LastPingKey := "lastPing"
  const SignalKey := "signalStrength"
  const DefaultAvgLatency: real := 0.0
  const DefaultLastPing: real := 0.0
  const DefaultSignal: real := -100.0

  /** A decoded telemetry object: field name to number. */
  type Stats = map<string, real>

  /** A frame broadcast to every client. */
  datatype Event = MessageOut(payload: string) | StatsOut(stats: Stats)

  /** The gateway's memory across reads: recently broadcast payloads and
      the merged latest telemetry. */
  datatype Relay = Relay(recent: set<string>, latest: Stats)

  /** The effect of one pass of the framing loop. */
  datatype Step = Step(rest: string, relay: Relay, out: seq<Event>)

  /** A `[MSG]` line: where it starts, its text up to the newline or the
      end of the buffer, and the buffer without it. */
  datatype MsgCut = MsgCut(start: nat, line: string, rest: string)

  /** A terminated `[STATS]` line and the buffer after its newline. */
  datatype StatsCut = StatsCut(start: nat, line: string, rest: string)

  /** A decoded client frame; None for an absent `type` or `data` key. */
  datatype ClientFrame = ClientFrame(kind: Option<string>, data: Option<string>)

  /** The order in which Python iterates a set is not modelled: cutting the
      set back keeps some `RecentKeep` of its entries, chosen by `trim`. */
  ghost predicate KeepsSome(trim: set<string> -> set<string>)
  {
    forall s: set<string> :: |s| > RecentCap ==> trim(s) <= s && |trim(s)| == RecentKeep
  }

  /** No stats frame is followed by a message frame. */
  predicate MessagesFirst(out: seq<Event>)
  {
    forall i, j :: 0 <= i < j < |out| && out[i].StatsOut? ==> out[j].StatsOut?
  }

  /** Python's `int()` on a float: rounds toward zero. */
  function Truncate(x: real): (n: int)
    ensures 0.0 <= x ==> n as real <= x < n as real + 1.0
    ensures x < 0.0 ==> n as real - 1.0 < x <= n as real
  {
    if x >= 0.0 then x.Floor else -((-x).Floor)
  }

  /** Python's `d.get(key, default)`. */
  function Get(d: Stats, key: string, default: real): real
  {
    if key in d then d[key] else default
  }

  /** `int(x)` as a number again: integral, `x` itself when `x` is, and
      otherwise the whole number next to `x` on the side of zero. */
  function AsInt(x: real): (r: real)
    ensures r == r.Floor as real
    ensures x == x.Floor as real ==> r == x
    ensures 0.0 <= x ==> r <= x < r + 1.0
    ensures x < 0.0 ==> r - 1.0 < x <= r
    ensures r == Truncate(x) as real
  {
    var n := Truncate(x);
    assert (n as real).Floor == n;
    assert x == x.Floor as real ==> n == x.Floor;
    n as real
  }

  /** The decoded telemetry with latency, last ping and signal strength
      coerced and filled in when absent. */
  function WithDefaults(obj: Stats): (m: Stats)
    ensures m.Keys == obj.Keys + {AvgLatencyKey, LastPingKey, SignalKey}
    ensures forall k :: k in obj && k !in {AvgLatencyKey, LastPingKey, SignalKey} ==> m[k] == obj[k]
    ensures m[AvgLatencyKey] == Get(obj, AvgLatencyKey, DefaultAvgLatency)
    ensures m[LastPingKey] == AsInt(Get(obj, LastPingKey, DefaultLastPing))
    ensures m[SignalKey] == AsInt(Get(obj, SignalKey, DefaultSignal))
  {
    assert |AvgLatencyKey| == 10 && |LastPingKey| == 8 && |SignalKey| == 14;
    obj[AvgLatencyKey := Get(obj, AvgLatencyKey, DefaultAvgLatency)]
       [LastPingKey := AsInt(Get(obj, LastPingKey, DefaultLastPing))]
       [SignalKey := AsInt(Get(obj, SignalKey, DefaultSignal))]
  }

  /** What the defaults promise: the three fields are always present, last
      ping and signal strength are whole numbers, a missing signal strength
      reads -100 and a missing last ping 0, and every other field passes
      through unchanged. */
  lemma StatsDefaults(obj: Stats)
    ensures AvgLatencyKey in WithDefaults(obj) && LastPingKey in WithDefaults(obj) && SignalKey in WithDefaults(obj)
    ensures SignalKey !in obj ==> WithDefaults(obj)[SignalKey] == DefaultSignal
    ensures LastPingKey !in obj ==> WithDefaults(obj)[LastPingKey] == DefaultLastPing
    ensures AvgLatencyKey !in obj ==> WithDefaults(obj)[AvgLatencyKey] == DefaultAvgLatency
    ensures WithDefaults(obj)[SignalKey] == WithDefaults(obj)[SignalKey].Floor as real
    ensures WithDefaults(obj)[LastPingKey] == WithDefaults(obj)[LastPingKey].Floor as real
    ensures forall k :: k in obj && k != LastPingKey && k != SignalKey ==> WithDefaults(obj)[k] == obj[k]
  {
  }

  /** `latest_stats.update(stats)`: field by field, newer values win. */
  function Merge(latest: Stats, stats: Stats): (m: Stats)
    ensures m.Keys == latest.Keys + stats.Keys
    ensures forall k :: k in stats ==> m[k] == stats[k]
    ensures forall k :: k in latest && k !in stats ==> m[k] == latest[k]
  {
    latest + stats
  }

  /** The latest telemetry after merging, in order, every stats frame of `out`. */
  function ApplyStats(latest: Stats, out: seq<Event>): Stats
    decreases |out|
  {
    if out == [] then latest
    else
      var next := match out[0]
        case StatsOut(stats) => Merge(latest, stats)
        case MessageOut(_) => latest;
      ApplyStats(next, out[1..])
  }

  lemma {:induction false} ApplyStatsAppend(latest: Stats, a: seq<Event>, b: seq<Event>)
    ensures ApplyStats(latest, a + b) == ApplyStats(ApplyStats(latest, a), b)
    decreases |a|
  {
    if a != [] {
      assert (a + b)[0] == a[0];
      assert (a + b)[1..] == a[1..] + b;
      var next := match a[0]
        case StatsOut(stats) => Merge(latest, stats)
        case MessageOut(_) => latest;
      ApplyStatsAppend(next, a[1..], b);
    } else {
      assert a + b == b;
    }
  }

  /** Remembers a payload; `isNew` says it was not seen recently and is to
      be broadcast. */
  datatype Remembered = Remembered(isNew: bool, recent: set<string>)

  function Remember(recent: set<string>, payload: string, trim: set<string> -> set<string>): (r: Remembered)
    requires KeepsSome(trim)
    ensures r.isNew <==> payload !in recent
    ensures !r.isNew ==> r.recent == recent
    ensures r.isNew ==> r.recent <= recent + {payload}
    ensures r.isNew && |recent| < RecentCap ==> r.recent == recent + {payload}
    ensures r.isNew && |recent| >= RecentCap ==> |r.recent| == RecentKeep
    ensures |recent| <= RecentCap ==> |r.recent| <= RecentCap
  {
    if payload in recent then Remembered(false, recent)
    else
      var grown := recent + {payload};
      if |grown| > RecentCap then Remembered(true, trim(grown)) else Remembered(true, grown)
  }

  lemma TagHasNoNewline(buffer: string, start: nat)
    requires At(buffer, MsgTag, start)
    ensures forall k :: start <= k < start + |MsgTag| ==> buffer[k] != '\n'
  {
    forall k | start <= k < start + |MsgTag|
      ensures buffer[k] != '\n'
    {
      assert buffer[k] == buffer[start..start + |MsgTag|][k - start];
    }
  }

  /** `end if end != -1 else len(buffer)` for `end = buffer.find('\n', from)`. */
  function LineStop(buffer: string, from: nat): (stop: nat)
    requires from <= |buffer|
    ensures from <= stop <= |buffer|
    ensures forall k :: from <= k < stop ==> buffer[k] != '\n'
    ensures stop == |buffer| || buffer[stop] == '\n'
  {
    match FindChar(buffer, '\n', from)
    case Some(e) => e
    case None => |buffer|
  }

  /** Cuts the first `[MSG]` line out of the buffer. */
  function CutMsgLine(buffer: string): (c: MsgCut)
    requires Contains(buffer, MsgTag)
    ensures FirstAt(buffer, MsgTag, c.start)
    ensures |MsgTag| <= |c.line| && c.start + |c.line| <= |buffer|
    ensures c.line == buffer[c.start..c.start + |c.line|]
    ensures forall k :: 0 <= k < |c.line| ==> c.line[k] != '\n'
    ensures c.start + |c.line| == |buffer| || buffer[c.start + |c.line|] == '\n'
    ensures c.rest == buffer[..c.start] + buffer[c.start + |c.line|..]
  {
    var start := IndexOf(buffer, MsgTag).value;
    var stop := LineStop(buffer, start);
    TagHasNoNewline(buffer, start);
    var line := buffer[start..stop];
    assert stop >= start + |MsgTag|;
    MsgCut(start, line, buffer[..start] + buffer[stop..])
  }

  /** The cut is what `buffer.replace(line, "", 1)` leaves: the leftmost
      occurrence of the line is the one at the first `[MSG]`. */
  lemma CutIsReplace(buffer: string)
    requires Contains(buffer, MsgTag)
    ensures Replace1(buffer, CutMsgLine(buffer).line) == CutMsgLine(buffer).rest
  {
    var c := CutMsgLine(buffer);
    assert c.line[..|MsgTag|] == buffer[c.start..c.start + |MsgTag|];
    RemoveCutLine(buffer, MsgTag, c.start, c.line);
  }

  /** The text of a `[MSG]` line after the tag, stripped. */
  function MessagePayload(line: string): string
    requires |MsgTag| <= |line|
  {
    PyStrip(line[|MsgTag|..])
  }

  /** The `[MSG]` branch of the framing loop. */
  function TakeMessage(buffer: string, relay: Relay, trim: set<string> -> set<string>): (r: Step)
    requires KeepsSome(trim)
    requires Contains(buffer, MsgTag)
    ensures |r.rest| + |CutMsgLine(buffer).line| == |buffer| && |r.rest| < |buffer|
    ensures r.rest == CutMsgLine(buffer).rest
    ensures r.out != [] <==> MessagePayload(CutMsgLine(buffer).line) !in relay.recent
    ensures r.out == [] || r.out == [MessageOut(MessagePayload(CutMsgLine(buffer).line))]
    ensures |relay.recent| <= RecentCap ==> |r.relay.recent| <= RecentCap
    ensures r.relay.recent == Remember(relay.recent, MessagePayload(CutMsgLine(buffer).line), trim).recent
    ensures r.relay.latest == relay.latest == ApplyStats(relay.latest, r.out)
  {
    var c := CutMsgLine(buffer);
    var payload := MessagePayload(c.line);
    var m := Remember(relay.recent, payload, trim);
    var out := if m.isNew then [MessageOut(payload)] else [];
    assert ApplyStats(relay.latest, out) == relay.latest by {
      if out != [] {
        assert out[1..] == [];
      }
    }
    Step(c.rest, relay.(recent := m.recent), out)
  }

  /** Cuts the first `[STATS]` line out of the buffer if a newline ends it. */
  function CutStatsLine(buffer: string): (r: Option<StatsCut>)
    requires Contains(buffer, StatsTag)
    ensures r.None? <==> forall i: nat :: At(buffer, StatsTag, i) ==> NoNewlineFrom(buffer, i)
    ensures r.Some? ==> FirstAt(buffer, StatsTag, r.value.start)
    ensures r.Some? ==> r.value.start + |r.value.line| < |buffer|
    ensures r.Some? ==> r.value.line == buffer[r.value.start..r.value.start + |r.value.line|]
    ensures r.Some? ==> buffer[r.value.start + |r.value.line|] == '\n' && NoNewlineFrom(r.value.line, 0)
    ensures r.Some? ==> r.value.rest == buffer[r.value.start + |r.value.line| + 1..]
  {
    var start := IndexOf(buffer, StatsTag).value;
    match FindChar(buffer, '\n', start)
    case None =>
      NoNewlineAfterAny(buffer, StatsTag, start);
      None
    case Some(e) =>
      Some(StatsCut(start, buffer[start..e], buffer[e + 1..]))
  }

  /** `j` is where `line.index('{')` finds the first brace. */
  predicate FirstBrace(line: string, j: nat)
  {
    j < |line| && line[j] == '{' && forall k :: 0 <= k < j ==> line[k] != '{'
  }

  /** The telemetry a `[STATS]` line carries: the JSON from its first `{`,
      decoded by `decode`, with defaults filled in; None where the source
      reports a parse error. */
  function StatsFromLine(line: string, decode: string -> Option<Stats>): (r: Option<Stats>)
    ensures (forall k :: 0 <= k < |line| ==> line[k] != '{') ==> r.None?
    ensures forall j: nat :: FirstBrace(line, j) ==>
      && (r.Some? <==> decode(line[j..]).Some?)
      && (r.Some? ==> r.value == WithDefaults(decode(line[j..]).value))
    ensures r.Some? ==> AvgLatencyKey in r.value && LastPingKey in r.value && SignalKey in r.value
  {
    match FindChar(line, '{', 0)
    case None => None
    case Some(j) =>
      match decode(line[j..])
      case None => None
      case Some(obj) => Some(WithDefaults(obj))
  }

  /** The `[STATS]` branch of the framing loop; None is its `break`. */
  function TakeStats(buffer: string, relay: Relay, decode: string -> Option<Stats>): (r: Option<Step>)
    requires Contains(buffer, StatsTag)
    ensures r.None? <==> CutStatsLine(buffer).None?
    ensures r.Some? ==> r.value.rest == CutStatsLine(buffer).value.rest && |r.value.rest| < |buffer|
    ensures r.Some? && !Contains(buffer, MsgTag) ==> !Contains(r.value.rest, MsgTag)
    ensures r.Some? ==> (r.value.out == [] <==> StatsFromLine(CutStatsLine(buffer).value.line, decode).None?)
    ensures r.Some? && StatsFromLine(CutStatsLine(buffer).value.line, decode).Some? ==>
      r.value.out == [StatsOut(StatsFromLine(CutStatsLine(buffer).value.line, decode).value)]
    ensures r.Some? ==> r.value.relay.recent == relay.recent
    ensures r.Some? ==> |r.value.out| <= 1 && forall k :: 0 <= k < |r.value.out| ==> r.value.out[k].StatsOut?
    ensures r.Some? ==> r.value.relay.latest == ApplyStats(relay.latest, r.value.out)
  {
    var cut := CutStatsLine(buffer);
    if cut.None? then None
    else
      var c := cut.value;
      var from := c.start + |c.line| + 1;
      SuffixKeepsAbsence(buffer, MsgTag, from);
      assert c.rest == buffer[from..];
      var st := StatsFromLine(c.line, decode);
      if st.None? then
        assert ApplyStats(relay.latest, []) == relay.latest;
        Some(Step(c.rest, relay, []))
      else
        ApplyOne(relay.latest, st.value);
        Some(Step(c.rest, relay.(latest := Merge(relay.latest, st.value)), [StatsOut(st.value)]))
  }

  lemma ApplyOne(latest: Stats, stats: Stats)
    ensures ApplyStats(latest, [StatsOut(stats)]) == Merge(latest, stats)
  {
    assert [StatsOut(stats)][1..] == [];
  }

  /** One pass of the framing loop; None is its `break`. */
  function ReadStep(buffer: string, relay: Relay, trim: set<string> -> set<string>, decode: string -> Option<Stats>): (r: Option<Step>)
    requires KeepsSome(trim)
    requires Contains(buffer, MsgTag) || Contains(buffer, StatsTag)
    ensures Contains(buffer, MsgTag) ==> r == Some(TakeMessage(buffer, relay, trim))
    ensures !Contains(buffer, MsgTag) ==> r == TakeStats(buffer, relay, decode)
    ensures r.None? <==> !Contains(buffer, MsgTag) && forall i: nat :: At(buffer, StatsTag, i) ==> NoNewlineFrom(buffer, i)
    ensures Contains(buffer, MsgTag) ==> r.Some? && forall k :: 0 <= k < |r.value.out| ==> r.value.out[k].MessageOut?
    ensures !Contains(buffer, MsgTag) && r.Some? ==>
      !Contains(r.value.rest, MsgTag) && forall k :: 0 <= k < |r.value.out| ==> r.value.out[k].StatsOut?
    ensures r.Some? ==> |r.value.rest| < |buffer|
    ensures r.Some? && |relay.recent| <= RecentCap ==> |r.value.relay.recent| <= RecentCap
    ensures r.Some? ==> r.value.relay.latest == ApplyStats(relay.latest, r.value.out)
  {
    if Contains(buffer, MsgTag) then Some(TakeMessage(buffer, relay, trim))
    else TakeStats(buffer, relay, decode)
  }

  /** The framing loop as a recursion: passes of ReadStep run until no tag
      is left or the step breaks, and their frames are broadcast in order. */
  function Drain(buffer: string, relay: Relay, trim: set<string> -> set<string>,
                 decode: string -> Option<Stats>): (r: Step)
    requires KeepsSome(trim)
    ensures !Contains(r.rest, MsgTag)
    ensures forall i: nat :: At(r.rest, StatsTag, i) ==> NoNewlineFrom(r.rest, i)
    ensures |r.rest| <= |buffer|
    ensures r.relay.latest == ApplyStats(relay.latest, r.out)
    ensures |relay.recent| <= RecentCap ==> |r.relay.recent| <= RecentCap
    ensures MessagesFirst(r.out)
    ensures !Contains(buffer, MsgTag) ==> forall k :: 0 <= k < |r.out| ==> r.out[k].StatsOut?
    ensures !Contains(buffer, MsgTag) && !Contains(buffer, StatsTag) ==> r == Step(buffer, relay, [])
    decreases |buffer|
  {
    if !Contains(buffer, MsgTag) && !Contains(buffer, StatsTag) then Step(buffer, relay, [])
    else
      match ReadStep(buffer, relay, trim, decode)
      case None => Step(buffer, relay, [])
      case Some(s) =>
        var d := Drain(s.rest, s.relay, trim, decode);
        ApplyStatsAppend(relay.latest, s.out, d.out);
        OrderJoin(s.out, d.out);
        Step(d.rest, d.relay, s.out + d.out)
  }

  /** Frames of one pass, then those of the passes after it: either all
      of the first are messages, or all of both are stats. */
  lemma OrderJoin(first: seq<Event>, more: seq<Event>)
    requires MessagesFirst(more)
    requires (forall k :: 0 <= k < |first| ==> first[k].MessageOut?) ||
             ((forall k :: 0 <= k < |first| ==> first[k].StatsOut?) && forall k :: 0 <= k < |more| ==> more[k].StatsOut?)
    ensures MessagesFirst(first + more)
    ensures (forall k :: 0 <= k < |first| ==> first[k].StatsOut?) && (forall k :: 0 <= k < |more| ==> more[k].StatsOut?) ==>
      forall k :: 0 <= k < |first + more| ==> (first + more)[k].StatsOut?
  {
  }

  /** `whole` is `out` followed by what `tail` still does. */
  predicate Resumes(whole: Step, tail: Step, out: seq<Event>)
  {
    whole.rest == tail.rest && whole.relay == tail.relay && whole.out == out + tail.out
  }

  /** A pass that goes through leaves the rest of the loop to the next pass. */
  lemma DrainGoesOn(buffer: string, relay: Relay, trim: set<string> -> set<string>,
                    decode: string -> Option<Stats>, s: Step)
    requires KeepsSome(trim)
    requires Contains(buffer, MsgTag) || Contains(buffer, StatsTag)
    ensures ReadStep(buffer, relay, trim, decode) == Some(s) ==>
      Resumes(Drain(buffer, relay, trim, decode), Drain(s.rest, s.relay, trim, decode), s.out)
  {
  }

  /** A pass that breaks, or a buffer with no tag, ends the loop there. */
  lemma DrainStops(buffer: string, relay: Relay, trim: set<string> -> set<string>,
                   decode: string -> Option<Stats>)
    requires KeepsSome(trim)
    requires (Contains(buffer, MsgTag) || Contains(buffer, StatsTag)) ==> ReadStep(buffer, relay, trim, decode).None?
    ensures Drain(buffer, relay, trim, decode) == Step(buffer, relay, [])
  {
  }

  lemma ResumesChain(whole: Step, mid: Step, tail: Step, out: seq<Event>, more: seq<Event>)
    requires Resumes(whole, mid, out)
    requires Resumes(mid, tail, more)
    ensures Resumes(whole, tail, out + more)
  {
    assert out + (more + tail.out) == out + more + tail.out;
  }

  /** When the loop ends, `whole` is exactly what it did. */
  lemma {:induction false} DrainEnd(whole: Step, buffer: string, relay: Relay, trim: set<string> -> set<string>,
                                    decode: string -> Option<Stats>, out: seq<Event>)
    requires KeepsSome(trim)
    requires (Contains(buffer, MsgTag) || Contains(buffer, StatsTag)) ==> ReadStep(buffer, relay, trim, decode).None?
    requires Resumes(whole, Drain(buffer, relay, trim, decode), out)
    ensures whole == Step(buffer, relay, out)
  {
    DrainStops(buffer, relay, trim, decode);
    assert out + [] == out;
  }

  /** What one serial read does: the text read is appended to the pending
      buffer and lines are framed until no complete one is left. */
  method ReadSerial(pending: string, chunk: string, relay: Relay,
                    trim: set<string> -> set<string>, decode: string -> Option<Stats>)
    returns (rest: string, after: Relay, out: seq<Event>)
    requires KeepsSome(trim)
    requires |relay.recent| <= RecentCap
    ensures |after.recent| <= RecentCap
    ensures !Contains(rest, MsgTag)
    ensures forall i: nat :: At(rest, StatsTag, i) ==> NoNewlineFrom(rest, i)
    ensures MessagesFirst(out)
    ensures after.latest == ApplyStats(relay.latest, out)
    ensures |rest| <= |pending| + |chunk|
    ensures !Contains(pending + chunk, MsgTag) && !Contains(pending + chunk, StatsTag) ==>
      rest == pending + chunk && after == relay && out == []
    ensures Step(rest, after, out) == Drain(pending + chunk, relay, trim, decode)
  {
    rest := pending + chunk;
    after := relay;
    out := [];
    ghost var whole := Drain(rest, relay, trim, decode);
    assert Resumes(whole, whole, []);
    while Contains(rest, MsgTag) || Contains(rest, StatsTag)
      invariant Resumes(whole, Drain(rest, after, trim, decode), out)
      decreases |rest|
    {
      var step := ReadStep(rest, after, trim, decode);
      if step.None? {
        break;
      }
      var s := step.value;
      DrainGoesOn(rest, after, trim, decode, s);
      ResumesChain(whole, Drain(rest, after, trim, decode), Drain(s.rest, s.relay, trim, decode), out, s.out);
      rest, after, out := s.rest, s.relay, out + s.out;
    }
    DrainEnd(whole, rest, after, trim, decode, out);
  }

  /** The `send` filter on client frames: what is written to serial. */
  function SerialWrite(decoded: Option<ClientFrame>): (w: Option<string>)
    ensures w.Some? <==>
      decoded.Some? && decoded.value.kind == Some(SendKind) && !Blank(decoded.value.data.GetOr(""), IsPySpace)
    ensures w.Some? ==> |w.value| >= 2 && w.value[|w.value| - 1] == '\n'
    ensures w.Some? ==> !IsPySpace(w.value[0]) && !IsPySpace(w.value[|w.value| - 2])
    ensures w.Some? ==> w.value[..|w.value| - 1] == PyStrip(decoded.value.data.value)
  {
    match decoded
    case None => None
    case Some(f) =>
      if f.kind != Some(SendKind) then None
      else
        var text := PyStrip(f.data.GetOr(""));
        if text == "" then None else Some(text + "\n")
  }
}

=== FILE: link.dfy ===
/** The client and the gateway connected: what the client writes reaches
    the gateway's send filter, and what the gateway broadcasts reaches the
    client's frame handler. JSON encoding in between is the identity here. */
module Link {
  import opened Wrappers
  import opened Whitespace
  import Chat
  import Gateway
  import Text
  import Wire

  /** A client send frame as the gateway decodes it. */
  function ToGateway(o: Chat.Outbound): Gateway.ClientFrame
  {
    Gateway.ClientFrame(Some(o.kind), Some(o.data))
  }

  function Field(m: Gateway.Stats, key: string): Option<real>
  {
    if key in m then Some(m[key]) else None
  }

  /** A broadcast telemetry object as the client decodes it. A spreading
      factor is read as an integer only when it is integral. */
  function ToPayload(m: Gateway.Stats): Chat.StatsPayload
  {
    Chat.StatsPayload(
      Field(m, Gateway.SignalKey),
      Field(m, "frequency"),
      Field(m, "bandwidth"),
      if "spreadingFactor" in m && m["spreadingFactor"] == m["spreadingFactor"].Floor as real
      then Some(m["spreadingFactor"].Floor) else None,
      Field(m, Gateway.LastPingKey),
      Field(m, "messagesSent"),
      Field(m, "messagesReceived"),
      Field(m, "deliveryRate"),
      Field(m, Gateway.AvgLatencyKey))
  }

  /** A broadcast frame as the client decodes it. */
  function ToClient(e: Gateway.Event): Chat.Frame
  {
    match e
    case MessageOut(p) => Chat.Frame(Wire.MessageKind, Chat.Text(p))
    case StatsOut(m) => Chat.Frame(Wire.StatsKind, Chat.Record(ToPayload(m)))
  }

  /** A non-blank send on an open socket reaches the radio as the stripped
      text and a newline, unless Python finds the text blank. */
  lemma SendReachesRadio(s: Chat.ChatState)
    requires !Blank(s.input, IsJsSpace)
    ensures Chat.HandleSend(s, true).wire == Some(Chat.Outbound(Wire.SendKind, s.input))
    ensures Gateway.SerialWrite(Some(ToGateway(Chat.HandleSend(s, true).wire.value)))
      == if Blank(s.input, IsPySpace) then None else Some(PyStrip(s.input) + "\n")
  {
  }

  /** The two blank tests disagree: a lone information separator (U+001C)
      is sent by the client and shown as sending, but the gateway strips it
      to nothing and writes nothing to the radio. */
  lemma SeparatorSendIsLost(s: Chat.ChatState)
    requires s.input == "\U{001C}"
    ensures Chat.HandleSend(s, true).state.messages == s.messages + [Chat.Msg(Chat.LocalSender, s.input, Chat.Sending, true)]
    ensures Chat.HandleSend(s, true).wire.Some?
    ensures Gateway.SerialWrite(Some(ToGateway(Chat.HandleSend(s, true).wire.value))) == None
  {
    assert !IsJsSpace(s.input[0]);
    assert IsPySpace(s.input[0]);
  }

  /** A payload the gateway broadcasts is appended to the client's list as
      a delivered message from the remote side. */
  lemma RadioMessageShown(s: Chat.ChatState, payload: string)
    ensures Chat.OnFrame(s, Some(ToClient(Gateway.MessageOut(payload)))).messages
      == s.messages + [Chat.Msg(Chat.RemoteSender, payload, Chat.Delivered, false)]
  {
  }

  /** Every telemetry object the gateway broadcasts installs a snapshot at
      the client, because the gateway always fills in the latency; a line
      without a signal strength shows as Poor. */
  lemma GatewayStatsAlwaysShown(s: Chat.ChatState, obj: Gateway.Stats)
    ensures Chat.Telemetry(Some(ToClient(Gateway.StatsOut(Gateway.WithDefaults(obj))))).Some?
    ensures Gateway.SignalKey !in obj ==>
      Chat.OnFrame(s, Some(ToClient(Gateway.StatsOut(Gateway.WithDefaults(obj))))).snapshot.signal == Chat.Poor
    ensures Chat.OnFrame(s, Some(ToClient(Gateway.StatsOut(Gateway.WithDefaults(obj))))).messages == s.messages
  {
  }

  /** Every telemetry frame a `[STATS]` pass broadcasts replaces the
      client's snapshot with the one it carries and leaves the messages. */
  lemma TakenStatsShown(s: Chat.ChatState, buffer: string, relay: Gateway.Relay,
                        decode: string -> Option<Gateway.Stats>)
    requires Text.Contains(buffer, Gateway.StatsTag)
    ensures Gateway.TakeStats(buffer, relay, decode).Some? ==>
      forall e | e in Gateway.TakeStats(buffer, relay, decode).value.out ::
        && Chat.Telemetry(Some(ToClient(e))).Some?
        && Chat.OnFrame(s, Some(ToClient(e))) == s.(snapshot := Chat.Telemetry(Some(ToClient(e))).value)
  {
    match Gateway.CutStatsLine(buffer)
    case None =>
    case Some(c) =>
      match Gateway.StatsFromLine(c.line, decode)
      case None =>
      case Some(st) =>
        GatewayStatsInstalled(s, st);
  }

  lemma GatewayStatsInstalled(s: Chat.ChatState, st: Gateway.Stats)
    requires Gateway.AvgLatencyKey in st
    ensures Chat.Telemetry(Some(ToClient(Gateway.StatsOut(st)))).Some?
    ensures Chat.OnFrame(s, Some(ToClient(Gateway.StatsOut(st))))
      == s.(snapshot := Chat.Telemetry(Some(ToClient(Gateway.StatsOut(st)))).value)
  {
  }
}

=== FILE: text.dfy ===
/** Substring search on text, with the semantics of Python's `in`,
    `str.index`, `str.find` and `str.replace(old, "", 1)`. */
module Text {
  import opened Wrappers

  /** `pat` occurs in `s` starting at position `i`. */
  predicate At(s: string, pat: string, i: nat)
  {
    i + |pat| <= |s| && s[i..i + |pat|] == pat
  }

  /** Python's `pat in s`. */
  predicate Contains(s: string, pat: string)
  {
    exists i: nat | i <= |s| :: At(s, pat, i)
  }

  /** `i` is the leftmost occurrence of `pat` in `s`. */
  predicate FirstAt(s: string, pat: string, i: nat)
  {
    At(s, pat, i) && forall k: nat :: k < i ==> !At(s, pat, k)
  }

  /** No newline occurs in `s` at or after position `from`. */
  predicate NoNewlineFrom(s: string, from: nat)
  {
    forall k :: from <= k < |s| ==> s[k] != '\n'
  }

  /** Leftmost occurrence of `pat` in `s` at or after `from`. */
  function IndexFrom(s: string, pat: string, from: nat): (r: Option<nat>)
    ensures r.Some? ==> from <= r.value && At(s, pat, r.value)
    ensures r.Some? ==> forall k: nat :: from <= k < r.value ==> !At(s, pat, k)
    ensures r.None? ==> forall k: nat :: from <= k ==> !At(s, pat, k)
    decreases |s| - from
  {
    if from + |pat| > |s| then None
    else if At(s, pat, from) then Some(from)
    else IndexFrom(s, pat, from + 1)
  }

  /** Python's `s.index(pat)` (None where Python raises) and `s.find(pat)`. */
  function IndexOf(s: string, pat: string): (r: Option<nat>)
    ensures r.Some? <==> Contains(s, pat)
    ensures r.Some? ==> FirstAt(s, pat, r.value)
  {
    IndexFrom(s, pat, 0)
  }

  /** Python's `s.find(c, from)`: the first position at or after `from`
      holding `c`, or None where Python returns -1. */
  function FindChar(s: string, c: char, from: nat): (r: Option<nat>)
    ensures r.Some? ==> from <= r.value < |s| && s[r.value] == c
    ensures r.Some? ==> forall k :: from <= k < r.value ==> s[k] != c
    ensures r.None? ==> forall k :: from <= k < |s| ==> s[k] != c
    decreases |s| - from
  {
    if from >= |s| then None
    else if s[from] == c then Some(from)
    else FindChar(s, c, from + 1)
  }

  /** Python's `s.replace(pat, "", 1)`: drops the leftmost occurrence. */
  function Replace1(s: string, pat: string): string
  {
    match IndexOf(s, pat)
    case None => s
    case Some(i) => s[..i] + s[i + |pat|..]
  }

  /** The leftmost occurrence of a line that starts with `tag` is the
      occurrence of `tag` it was cut from, when that is the leftmost `tag`. */
  lemma {:induction false} FirstOccurrenceOfCut(s: string, tag: string, start: nat, line: string)
    requires FirstAt(s, tag, start)
    requires |tag| <= |line| && line[..|tag|] == tag
    requires At(s, line, start)
    ensures IndexOf(s, line) == Some(start)
  {
    forall k: nat | k < start
      ensures !At(s, line, k)
    {
      if At(s, line, k) {
        LineStartsWithTag(s, tag, k, line);
      }
    }
  }

  /** An occurrence of a line is an occurrence of the tag it starts with. */
  lemma LineStartsWithTag(s: string, tag: string, k: nat, line: string)
    requires |tag| <= |line| && line[..|tag|] == tag
    requires At(s, line, k)
    ensures At(s, tag, k)
  {
    assert s[k..k + |tag|] == s[k..k + |line|][..|tag|];
  }

  /** Removing the leftmost occurrence of such a line removes exactly the
      segment at `start`. */
  lemma RemoveCutLine(s: string, tag: string, start: nat, line: string)
    requires FirstAt(s, tag, start)
    requires |tag| <= |line| && line[..|tag|] == tag
    requires At(s, line, start)
    ensures Replace1(s, line) == s[..start] + s[start + |line|..]
  {
    FirstOccurrenceOfCut(s, tag, start, line);
  }

  /** A suffix of a text without `pat` is still without `pat`. */
  lemma {:induction false} SuffixKeepsAbsence(s: string, pat: string, from: nat)
    requires from <= |s|
    ensures !Contains(s, pat) ==> !Contains(s[from..], pat)
  {
    forall i: nat | At(s[from..], pat, i)
      ensures At(s, pat, from + i)
    {
      assert s[from..][i..i + |pat|] == s[from + i..from + i + |pat|];
    }
  }

  /** Every occurrence of `pat` lies at or after the leftmost one. */
  lemma NoNewlineAfterAny(s: string, pat: string, first: nat)
    requires FirstAt(s, pat, first)
    requires NoNewlineFrom(s, first)
    ensures forall i: nat :: At(s, pat, i) ==> NoNewlineFrom(s, i)
  {
  }
}

=== FILE: whitespace.dfy ===
/** Trimming as done by JavaScript's `String.prototype.trim` (the client's
    blank-input test) and Python's `str.strip()` (the gateway's payload and
    send filters). The two languages disagree on a few characters, so each
    gets its own exact character class over one shared trimming function. */
module Whitespace {

  /** ECMAScript WhiteSpace and LineTerminator: TAB, VT, FF, ZWNBSP, the
      space separators (category Zs), LF, CR, LS and PS. */
  predicate IsJsSpace(c: char)
  {
    || c == '\t' || c == '\n' || c == '\U{000B}' || c == '\U{000C}' || c == '\r'
    || c == ' ' || c == '\U{00A0}' || c == '\U{1680}'
    || ('\U{2000}' <= c <= '\U{200A}')
    || c == '\U{2028}' || c == '\U{2029}' || c == '\U{202F}' || c == '\U{205F}'
    || c == '\U{3000}' || c == '\U{FEFF}'
  }

  /** Python's `str.isspace` characters, which `str.strip()` removes: TAB to
      CR, the information separators FS to US, NEL and the Unicode spaces;
      unlike JavaScript it does not strip ZWNBSP. */
  predicate IsPySpace(c: char)
  {
    || ('\t' <= c <= '\r')
    || ('\U{001C}' <= c <= '\U{001F}')
    || c == ' ' || c == '\U{0085}' || c == '\U{00A0}' || c == '\U{1680}'
    || ('\U{2000}' <= c <= '\U{200A}')
    || c == '\U{2028}' || c == '\U{2029}' || c == '\U{202F}' || c == '\U{205F}'
    || c == '\U{3000}'
  }

  /** Every character of `s` is a space of the class `sp`. */
  predicate Blank(s: string, sp: char -> bool)
  {
    forall k :: 0 <= k < |s| ==> sp(s[k])
  }

  /** Length of the longest all-space prefix of `s`. */
  function LeadEnd(s: string, sp: char -> bool): (i: nat)
    ensures i <= |s|
    ensures forall k :: 0 <= k < i ==> sp(s[k])
    ensures i < |s| ==> !sp(s[i])
  {
    if s == [] || !sp(s[0]) then 0 else 1 + LeadEnd(s[1..], sp)
  }

  /** Start of the longest all-space suffix of `s`. */
  function TrailStart(s: string, sp: char -> bool): (j: nat)
    ensures j <= |s|
    ensures forall k :: j <= k < |s| ==> sp(s[k])
    ensures 0 < j ==> !sp(s[j - 1])
  {
    if s == [] || !sp(s[|s| - 1]) then |s| else TrailStart(s[..|s| - 1], sp)
  }

  /** `s` without its leading and trailing spaces of class `sp`. */
  function Trim(s: string, sp: char -> bool): (t: string)
    ensures LeadEnd(s, sp) + |t| <= |s|
    ensures t == s[LeadEnd(s, sp)..LeadEnd(s, sp) + |t|]
    ensures forall k :: LeadEnd(s, sp) + |t| <= k < |s| ==> sp(s[k])
    ensures t == [] <==> Blank(s, sp)
    ensures t != [] ==> !sp(t[0]) && !sp(t[|t| - 1])
  {
    var i := LeadEnd(s, sp);
    var j := TrailStart(s, sp);
    if j <= i then [] else s[i..j]
  }

  /** JavaScript's `s.trim()`. */
  function JsTrim(s: string): string
  {
    Trim(s, IsJsSpace)
  }

  /** Python's `s.strip()`. */
  function PyStrip(s: string): string
  {
    Trim(s, IsPySpace)
  }

  /** Trimming twice is trimming once. */
  lemma TrimIdempotent(s: string, sp: char -> bool)
    ensures Trim(Trim(s, sp), sp) == Trim(s, sp)
  {
    var t := Trim(s, sp);
    if t != [] {
      assert LeadEnd(t, sp) == 0;
      assert TrailStart(t, sp) == |t|;
    }
  }
}

=== FILE: wire.dfy ===
/** The `type` field of the JSON envelopes on the WebSocket between the
    chat client and the gateway; both ends compare against these. */
module Wire {
  /** A radio message broadcast to the clients. */
  const MessageKind := "message"
  /** A telemetry object broadcast to the clients. */
  const StatsKind := "stats"
  /** A client's text to be written to the radio. */
  const SendKind := "send"
}

=== FILE: wrappers.dfy ===
/** The Option type used for JavaScript `undefined` fields, failed parses and
    searches that find nothing. */
module Wrappers {

  datatype Option<+T> = None | Some(value: T) {

    /** Returns the value in Some, or `default` when there is none. */
    function GetOr(default: T): T
    {
      match this
      case Some(v) => v
      case None => default
    }
  }
}
